=== FILE: README.md ===
# Employee record store — a Dafny model

This project models the core of a two-module Spring application that manages employee
records. The employee service (`EmployeeServiceImpl`) keeps a keyed table of `Employee`
entities behind a JPA repository. It offers create, get-by-id, list, full update,
partial update and delete. The employee API puts a REST controller (`EmployeeController`)
in front of it. The controller validates POST and PUT bodies (`EmployeeDTO` and its
bean-validation annotations), maps bodies to entities and back, and picks the success
status. A global handler (`GlobalExceptionHandler`) turns exceptions into 404, 400 and
500 error bodies.

Files and modules:

- `common.dfy` (`Common`): nullable values, results of calls that may throw, the
  exceptions that reach the handler, `ResponseEntity`, and `Long.toString`.
- `employee.dfy` (`Entity`): the row value `EmployeeData` and the mutable bean `Employee`.
  Its setters each change one field.
- `employee_dto.dfy` (`Dto`): the transport value `EmployeeDto` and the validator. The
  validator takes the current date and the email-syntax rules as a `ValidationContext`.
- `employee_service.dfy` (`Service`): the table as a map plus the next identity value.
  Five operations are stated as table transitions (`SaveOutcome`, `Lookup`,
  `UpdateOutcome`, `PartialUpdateOutcome`, `DeleteOutcome`) with lemmas about them. The
  listing is stated by the predicate `Enumerates`: every stored row exactly once. The
  class `EmployeeService` holds the map. Its methods fetch an entity object, change it
  with setters and save it, as the source does, and are proved against those
  transitions.
- `exception_handler.dfy` (`ExceptionHandler`): the advice's dispatch to its three
  handlers (`Handle`), and the validation handler's loop that folds field errors into a map.
- `employee_controller.dfy` (`Controller`): the field-by-field mapper and the class
  `EmployeeController`. Its methods validate, map, call the service and choose the status.

The repository is a library whose code is not part of this model. The model gives
`save` the behaviour a JPA repository with an identity column has:

- A row whose id is null, or names no stored row, is inserted under a newly generated id.
- A row whose id names a stored row replaces that row.
- The email column is unique. A save that would give two rows the same non-null email
  fails with the database's data-integrity exception, which reaches the handler as an
  ordinary exception (`Other`), and changes nothing.

No code in the service enforces email uniqueness. The database does, and the model
makes it a table invariant (`StoreValid`) that every operation keeps.

`createEmployee` does not clear a client-supplied id. The mapper copies the DTO's id
(`EmployeeController.java:45`) and the service passes the entity straight to `save`
(`EmployeeServiceImpl.java:22`). So a valid POST that carries the id of a stored record
replaces that record instead of adding one (`Service.CreateWithStoredIdReplaces`). Callers
cannot rely on create to ignore a client-supplied id.

The `@Size` messages say "less than 50 characters", but the constraint accepts exactly
50. The model follows the constraint (`Dto.FirstNameLengthBoundary`).

## Model

| member | source | states |
|---|---|---|
| `Entity.Employee.constructor` | employee-service/src/main/java/org/example/employeeservice/entity/Employee.java:23-30 | each of the six arguments is stored in its own field |
| `Entity.Employee.Blank` | employee-service/src/main/java/org/example/employeeservice/entity/Employee.java:20-21 | the no-argument constructor leaves all six fields null |
| `Entity.Employee.SetId` | employee-service/src/main/java/org/example/employeeservice/entity/Employee.java:36-38 | afterwards the id is the argument and the other five fields are unchanged |
| `Entity.Employee.SetFirstName` | employee-service/src/main/java/org/example/employeeservice/entity/Employee.java:40-42 | afterwards firstName is the argument (any value, null or blank included) and every other field, id included, is unchanged |
| `Entity.Employee.SetLastName` | employee-service/src/main/java/org/example/employeeservice/entity/Employee.java:44-46 | only lastName changes, to the argument |
| `Entity.Employee.SetEmail` | employee-service/src/main/java/org/example/employeeservice/entity/Employee.java:48-50 | only email changes, to the argument |
| `Entity.Employee.SetPosition` | employee-service/src/main/java/org/example/employeeservice/entity/Employee.java:52-54 | only position changes, to the argument |
| `Entity.Employee.SetHireDate` | employee-service/src/main/java/org/example/employeeservice/entity/Employee.java:56-58 | only hireDate changes, to the argument |
| `Dto.TrimEmptyIff` | employee-api/src/main/java/org/example/employeeapi/dto/EmployeeDTO.java:15 | Java's trim leaves something exactly when the string has a character above U+0020 |
| `Dto.NotBlankIff` | employee-api/src/main/java/org/example/employeeapi/dto/EmployeeDTO.java:15 | @NotBlank holds exactly for non-null strings with a visible character |
| `Dto.FirstNameErrors` | employee-api/src/main/java/org/example/employeeapi/dto/EmployeeDTO.java:15-18 | "First name is mandatory" exactly when firstName is null or blank, "First name must be less than 50 characters" exactly when it is longer than 50, and no other error |
| `Dto.LastNameErrors` | employee-api/src/main/java/org/example/employeeapi/dto/EmployeeDTO.java:20-23 | "Last name is mandatory" exactly when lastName is null or blank, "Last name must be less than 50 characters" exactly when it is longer than 50, and no other error |
| `Dto.EmailErrors` | employee-api/src/main/java/org/example/employeeapi/dto/EmployeeDTO.java:25-28 | "Email should be valid" exactly when email is non-null and fails the email-syntax predicate, "Email is mandatory" exactly when it is null or blank, and no other error |
| `Dto.PositionErrors` | employee-api/src/main/java/org/example/employeeapi/dto/EmployeeDTO.java:30-33 | "Position is mandatory" exactly when position is null or blank, "Position must be less than 100 characters" exactly when it is longer than 100, and no other error |
| `Dto.HireDateErrors` | employee-api/src/main/java/org/example/employeeapi/dto/EmployeeDTO.java:35-37 | "Hire date cannot be in the future" exactly when hireDate is present and after today, and no other error |
| `Dto.Violations` | employee-api/src/main/java/org/example/employeeapi/dto/EmployeeDTO.java:13-37 | all constraints are evaluated; the fields with errors are exactly the failing fields, and there are no errors iff every field is valid on its own |
| `Dto.ViolationsAreBreaks` | employee-api/src/main/java/org/example/employeeapi/dto/EmployeeDTO.java:15-37 | the validator reports exactly the broken constraints, each as a field error carrying the message its annotation declares |
| `Dto.FirstNameLengthBoundary` | employee-api/src/main/java/org/example/employeeapi/dto/EmployeeDTO.java:16 | a first name of exactly 50 characters passes, 51 fails |
| `Dto.NullHireDateAccepted` | employee-api/src/main/java/org/example/employeeapi/dto/EmployeeDTO.java:35-37 | a null hireDate never yields an error |
| `Dto.IdUnconstrained` | employee-api/src/main/java/org/example/employeeapi/dto/EmployeeDTO.java:13 | the id never affects the verdict |
| `Dto.ExampleRejection` | employee-api/src/main/java/org/example/employeeapi/dto/EmployeeDTO.java:15-37 | an empty first name, a malformed email and tomorrow's hire date give exactly three errors, on those fields |
| `Service.SaveOutcome` | employee-service/src/main/java/org/example/employeeservice/entity/Employee.java:10-16 | save keeps the table invariant (ids generated, distinct, stored under themselves; emails unique); it fails iff another row holds the email, changing nothing; otherwise it stores the fields given under the chosen id |
| `Service.Lookup` | employee-service/src/main/java/org/example/employeeservice/service/impl/EmployeeServiceImpl.java:26-28 | the stored row when the id is present, otherwise ResourceNotFound "Employee not found with id " + id |
| `Service.UpdateOutcome` | employee-service/src/main/java/org/example/employeeservice/service/impl/EmployeeServiceImpl.java:36-45 | absent id: NotFound, table unchanged; present id: the row's five mutable fields become the input's, nulls included, the id is kept, no other row changes; fails only on a taken email |
| `Service.PartialUpdateOutcome` | employee-service/src/main/java/org/example/employeeservice/service/impl/EmployeeServiceImpl.java:48-72 | absent id: NotFound, table unchanged; present id: each field is overwritten iff the input's is non-null, the rest keep their values, no other row changes |
| `Service.DeleteOutcome` | employee-service/src/main/java/org/example/employeeservice/service/impl/EmployeeServiceImpl.java:75-78 | absent id: NotFound, table unchanged; present id: exactly that key is removed |
| `Service.CreateThenGet` | employee-service/src/main/java/org/example/employeeservice/service/impl/EmployeeServiceImpl.java:21-23 | after a successful create, get by the returned id gives the saved record, equal to the input except for the id |
| `Service.NextIdFree` | employee-service/src/main/java/org/example/employeeservice/entity/Employee.java:10-12 | the identity value handed out next names no stored row |
| `Service.CreateWithoutStoredIdInserts` | employee-service/src/main/java/org/example/employeeservice/service/impl/EmployeeServiceImpl.java:21-23 | a create without a stored id adds one row under a new id and keeps every existing row |
| `Service.CreateWithStoredIdReplaces` | employee-service/src/main/java/org/example/employeeservice/service/impl/EmployeeServiceImpl.java:21-23 | a create whose id names a stored row replaces that row and adds none |
| `Service.DuplicateEmailRefused` | employee-service/src/main/java/org/example/employeeservice/entity/Employee.java:15-16 | a create with an email already stored fails with the database's exception (`Other`); the table and the first record are unchanged |
| `Service.AbsentIdFails` | employee-service/src/main/java/org/example/employeeservice/service/impl/EmployeeServiceImpl.java:36-78 | update, partial update and delete of an absent id throw NotFound and leave the table unchanged |
| `Service.NotFoundMessageNamesId` | employee-service/src/main/java/org/example/employeeservice/service/impl/EmployeeServiceImpl.java:27 | the not-found message determines the id |
| `Service.UpdateIdempotent` | employee-service/src/main/java/org/example/employeeservice/service/impl/EmployeeServiceImpl.java:36-45 | applying the same full update twice gives the same table and result as once |
| `Service.EmptyPatchChangesNothing` | employee-service/src/main/java/org/example/employeeservice/service/impl/EmployeeServiceImpl.java:51-71 | a partial update whose fields are all null leaves the table as it was and returns the stored record |
| `Service.OtherRowsUntouched` | employee-service/src/main/java/org/example/employeeservice/service/impl/EmployeeServiceImpl.java:36-78 | update, partial update and delete leave every other id's row as it was |
| `Service.DeleteThenGetFails` | employee-service/src/main/java/org/example/employeeservice/service/impl/EmployeeServiceImpl.java:75-78 | after deleting a present id, exactly that key is gone and get of it throws NotFound |
| `Service.EmployeeService.constructor` | employee-service/src/main/java/org/example/employeeservice/service/impl/EmployeeServiceImpl.java:16-18 | the service works over the table of the repository it is given |
| `Service.EmployeeService.Save` | employee-service/src/main/java/org/example/employeeservice/service/impl/EmployeeServiceImpl.java:44 | the repository's save: the table moves as SaveOutcome says and a new entity object holds the stored row |
| `Service.EmployeeService.CreateEmployee` | employee-service/src/main/java/org/example/employeeservice/service/impl/EmployeeServiceImpl.java:20-23 | no checks of its own: the table and result are those of save on the given entity |
| `Service.EmployeeService.GetEmployeeById` | employee-service/src/main/java/org/example/employeeservice/service/impl/EmployeeServiceImpl.java:25-28 | a new entity object holding the stored row, or NotFound |
| `Service.EmployeeService.GetAllEmployees` | employee-service/src/main/java/org/example/employeeservice/service/impl/EmployeeServiceImpl.java:30-33 | a list holding every stored row exactly once |
| `Service.EmployeeService.UpdateEmployee` | employee-service/src/main/java/org/example/employeeservice/service/impl/EmployeeServiceImpl.java:35-45 | fetch, five setters, save: the table and result are UpdateOutcome's |
| `Service.EmployeeService.PartialUpdateEmployee` | employee-service/src/main/java/org/example/employeeservice/service/impl/EmployeeServiceImpl.java:47-72 | fetch, guarded setters, save: the table and result are PartialUpdateOutcome's |
| `Service.EmployeeService.DeleteEmployee` | employee-service/src/main/java/org/example/employeeservice/service/impl/EmployeeServiceImpl.java:74-78 | fetch, then delete: the table and result are DeleteOutcome's |
| `ExceptionHandler.LastMessagesKeys` | employee-api/src/main/java/org/example/employeeapi/exception/GlobalExceptionHandler.java:30-34 | the errors map's keys are exactly the fields with at least one error |
| `ExceptionHandler.LastMessagesLastWins` | employee-api/src/main/java/org/example/employeeapi/exception/GlobalExceptionHandler.java:32-33 | a field's message is that of its last error in iteration order |
| `ExceptionHandler.LastMessagesSoleMessage` | employee-api/src/main/java/org/example/employeeapi/exception/GlobalExceptionHandler.java:32-34 | a field whose errors all carry one message is reported with that message, in any iteration order |
| `ExceptionHandler.HandleValidationExceptions` | employee-api/src/main/java/org/example/employeeapi/exception/GlobalExceptionHandler.java:28-43 | status 400, message "Validation Failed", and the map the put loop builds, keyed by exactly the failing fields |
| `ExceptionHandler.Handle` | employee-api/src/main/java/org/example/employeeapi/exception/GlobalExceptionHandler.java:18-53 | NotFound gives 404 with the exception message and the request description; a validation failure gives 400; any other exception gives 500 with its message |
| `Controller.DtoRoundTrip` | employee-api/src/main/java/org/example/employeeapi/controller/EmployeeController.java:45-47 | mapping a DTO to an entity and back preserves all six fields |
| `Controller.EntityRoundTrip` | employee-api/src/main/java/org/example/employeeapi/controller/EmployeeController.java:45-47 | mapping an entity to a DTO and back preserves all six fields |
| `Controller.ToDtos` | employee-api/src/main/java/org/example/employeeapi/controller/EmployeeController.java:74 | the mapped list has the same length and order, each element the mapped record |
| `Controller.MapToEntity` | employee-api/src/main/java/org/example/employeeapi/controller/EmployeeController.java:45 | a new entity object whose six fields are the DTO's |
| `Controller.EmployeeController.constructor` | employee-api/src/main/java/org/example/employeeapi/controller/EmployeeController.java:28-31 | the controller keeps the service it is given; the ModelMapper argument is dropped, since the mapper is the fixed field-by-field copy `ToEntity`/`ToDto` |
| `Controller.EmployeeController.CreateEmployee` | employee-api/src/main/java/org/example/employeeapi/controller/EmployeeController.java:43-49 | an invalid body is rejected with its violations and the table is unchanged; a valid one is saved (its id included) and answered with 201 and the saved record |
| `Controller.EmployeeController.GetEmployeeById` | employee-api/src/main/java/org/example/employeeapi/controller/EmployeeController.java:60-65 | 200 with the stored record mapped, or NotFound |
| `Controller.EmployeeController.GetAllEmployees` | employee-api/src/main/java/org/example/employeeapi/controller/EmployeeController.java:71-76 | 200 with the service's list mapped element by element; every stored record appears once |
| `Controller.EmployeeController.UpdateEmployee` | employee-api/src/main/java/org/example/employeeapi/controller/EmployeeController.java:90-96 | an invalid body never reaches the service and the table is unchanged; a valid one is a full update answered with 200 |
| `Controller.EmployeeController.PatchEmployee` | employee-api/src/main/java/org/example/employeeapi/controller/EmployeeController.java:110-116 | no validation: any body goes to the partial update, answered with 200 |
| `Controller.EmployeeController.DeleteEmployee` | employee-api/src/main/java/org/example/employeeapi/controller/EmployeeController.java:125-129 | 204 with no body after a delete of a present id; NotFound otherwise |
| `Controller.PatchStoresBlankName` | employee-api/src/main/java/org/example/employeeapi/controller/EmployeeController.java:110-116 | a PATCH body with a blank first name, which validation would reject, is stored as given |
| `Controller.RejectedBodyErrorKeys` | employee-api/src/main/java/org/example/employeeapi/exception/GlobalExceptionHandler.java:28-43 | a rejected body's error map has one entry per failing field, and is non-empty |
| `Controller.RejectedBodyMessage` | employee-api/src/main/java/org/example/employeeapi/exception/GlobalExceptionHandler.java:28-43 | a field that breaks exactly one constraint appears in the 400 body's map with that constraint's declared message |
| `Controller.MissingFirstNameIsMandatory` | employee-api/src/main/java/org/example/employeeapi/dto/EmployeeDTO.java:15 | a null first name is answered with "First name is mandatory" in the 400 body's map |
| `Controller.MissingLastNameIsMandatory` | employee-api/src/main/java/org/example/employeeapi/dto/EmployeeDTO.java:20 | a null last name is answered with "Last name is mandatory" in the 400 body's map |
| `Controller.MissingEmailIsMandatory` | employee-api/src/main/java/org/example/employeeapi/dto/EmployeeDTO.java:26 | a null email is answered with "Email is mandatory" in the 400 body's map |
| `Controller.MissingPositionIsMandatory` | employee-api/src/main/java/org/example/employeeapi/dto/EmployeeDTO.java:30 | a null position is answered with "Position is mandatory" in the 400 body's map |

## Left out

- HTTP routing, path-variable parsing, JSON binding, the OpenAPI annotations, `SwaggerConfig.java` and `EmployeeApiApplication.java`: framework glue and metadata with no behaviour of the core.
- The timestamps of `ErrorDetails` and `ValidationErrorDetails`: they are clock reads. The other getters and setters of those holders become datatype fields.
- `request.getDescription(false)` is a parameter of type string, since it is a value of the web framework.
- The current date and the email-syntax rules of the validation library are parameters (`ValidationContext`). The library's email grammar is not modelled.
- Dto.Violations: the order of field errors is declaration order. The validation library promises no order, so which message wins for a field with two errors is not fixed by the source. The fold lemmas hold for every order.
- `EmployeeDTO` is an immutable value here. Its getters, setters and two constructors are used only by JSON binding and by the mapper, and are the datatype's fields, update and constructor.
- The getters of `Employee` are direct reads of the class's fields.
- ModelMapper is modelled as a field-by-field copy.
- `EmployeeRepository.java`, the JPA repository and `findByFirstNameAndLastName` (unused by the core) are replaced by the map and `SaveOutcome`.
- Service.EmployeeService.Save: the entity object passed to save is not itself given the generated id, as JPA's persist does; the model returns a new object holding the stored row.
- Service.SaveOutcome: a save whose non-null id names no stored row inserts under a fresh id. Some Hibernate versions throw instead; that is library behaviour outside this model.
- The text of the data-integrity violation message belongs to the database. The model uses a fixed placeholder.
- Service.EmployeeService.GetAllEmployees: the order of the list is the database's and is not modelled; only "every stored row exactly once" is stated.
- Ids are unbounded integers. The 64-bit width of `Long` is not modelled, and neither is a null id passed to `getEmployeeById`, since path variables are never null.
- String lengths count Dafny characters, not Java's UTF-16 code units.
- The read-then-save sequences of update and delete are not atomic, so concurrent requests can lose updates. Transactions and concurrency are out of scope.
- `EmployeeService.java` holds signatures only; they are the class's method signatures.
- The `ResourceNotFoundException` class (employee-common) is not part of this model; only its message is.

=== FILE: common.dfy ===
/** Shapes shared by the employee service and the employee API: optional values (Java
    references that may be null), results of calls that may throw, the exceptions that
    reach the API's global handler, and Java's decimal rendering of a Long. */
module Common {

  /** A Java reference that may be null. */
  datatype Option<+T> = None | Some(value: T)

  /** The outcome of a Java call that either returns a value or throws. */
  datatype Result<+T, +E> = Success(value: T) | Failure(error: E)

  /** A calendar date (java.time.LocalDate) as a count of days from a fixed epoch,
      so that the order of dates is the order of integers. */
  type Day = int

  /** One field-level violation reported by the bean validator: the property that
      failed and the message of the constraint it failed. */
  datatype FieldError = FieldError(field: string, message: string)

  /** The exceptions that leave a controller method and reach the global handler. */
  datatype Failure =
    | ResourceNotFound(message: string)                  // ResourceNotFoundException
    | MethodArgumentNotValid(fieldErrors: seq<FieldError>) // raised by @Valid before the handler method runs
    | Other(message: string)                             // any other Exception; the store's unique-email violation is one

  /** Spring's ResponseEntity: an HTTP status and an optional body. */
  datatype ResponseEntity<+T> = ResponseEntity(status: int, body: Option<T>)

  const OK := 200
  const CREATED := 201
  const NO_CONTENT := 204
  const BAD_REQUEST := 400
  const NOT_FOUND := 404
  const INTERNAL_SERVER_ERROR := 500

  /** The set of properties that carry at least one error. */
  function FieldsOf(errs: seq<FieldError>): set<string>
  {
    set e | e in errs :: e.field
  }

  lemma FieldsOfAppend(a: seq<FieldError>, b: seq<FieldError>)
    ensures FieldsOf(a + b) == FieldsOf(a) + FieldsOf(b)
  {
    assert forall e :: e in a + b <==> e in a || e in b;
  }

  // ---------------------------------------------------------------------------
  // Long.toString, as used by the string concatenation "…with id " + id

  function DigitChar(d: nat): (c: char)
    requires d < 10
    ensures '0' <= c <= '9'
  {
    ('0' as int + d) as char
  }

  function DigitValue(c: char): nat
  {
    if '0' <= c <= '9' then c as int - '0' as int else 0
  }

  /** Decimal digits of a non-negative number, most significant first, no leading zeros. */
  function NatText(n: nat): (s: string)
    ensures |s| > 0 && forall i | 0 <= i < |s| :: '0' <= s[i] <= '9'
  {
    if n < 10 then [DigitChar(n)] else NatText(n / 10) + [DigitChar(n % 10)]
  }

  /** Long.toString: a minus sign for negative values, then the digits of the magnitude. */
  function IntText(n: int): string
  {
    if n < 0 then "-" + NatText(-n) else NatText(n)
  }

  /** Reads a string of decimal digits back as a number. */
  function TextValue(s: string): nat
  {
    if s == [] then 0 else TextValue(s[..|s| - 1]) * 10 + DigitValue(s[|s| - 1])
  }

  lemma {:induction false} NatTextRoundTrip(n: nat)
    ensures TextValue(NatText(n)) == n
  {
    if n >= 10 {
      var prefix := NatText(n / 10);
      var s := prefix + [DigitChar(n % 10)];
      assert s[..|s| - 1] == prefix;
      NatTextRoundTrip(n / 10);
    }
  }

  /** Different ids are rendered as different texts. */
  lemma IntTextInjective(m: int, n: int)
    requires IntText(m) == IntText(n)
    ensures m == n
  {
    var tm, tn := NatText(if m < 0 then -m else m), NatText(if n < 0 then -n else n);
    assert tm[0] != '-' && tn[0] != '-';
    assert IntText(m) == if m < 0 then "-" + tm else tm;
    assert IntText(n) == if n < 0 then "-" + tn else tn;
    if (m < 0) == (n < 0) {
      assert tm == tn by {
        if m < 0 { assert tm == IntText(m)[1..] && tn == IntText(n)[1..]; }
      }
      NatTextRoundTrip(if m < 0 then -m else m);
      NatTextRoundTrip(if n < 0 then -n else n);
    }
  }
}

=== FILE: employee.dfy ===
/** The persisted employee record (the JPA entity of the employee service). */
module Entity {
  import opened Common

  /** The six columns of one row of the employees table. Every column may be null:
      the entity itself enforces nothing. */
  datatype EmployeeData = EmployeeData(
    id: Option<int>,
    firstName: Option<string>,
    lastName: Option<string>,
    email: Option<string>,
    position: Option<string>,
    hireDate: Option<Day>)

  /** The mutable entity bean. Its setters each assign one field and accept any value,
      null and blank strings included. */
  class Employee {
    var id: Option<int>
    var firstName: Option<string>
    var lastName: Option<string>
    var email: Option<string>
    var position: Option<string>
    var hireDate: Option<Day>

    /** The values of all six fields (what the getters return). */
    function Data(): EmployeeData
      reads this
    {
      EmployeeData(id, firstName, lastName, email, position, hireDate)
    }

    /** The no-argument constructor: every field null. */
    constructor Blank()
      ensures Data() == EmployeeData(None, None, None, None, None, None)
    {
      id, firstName, lastName, email, position, hireDate := None, None, None, None, None, None;
    }

    /** The six-argument constructor stores each argument in its own field. */
    constructor (id: Option<int>, firstName: Option<string>, lastName: Option<string>,
                 email: Option<string>, position: Option<string>, hireDate: Option<Day>)
      ensures this.id == id && this.firstName == firstName && this.lastName == lastName
      ensures this.email == email && this.position == position && this.hireDate == hireDate
    {
      this.id := id;
      this.firstName := firstName;
      this.lastName := lastName;
      this.email := email;
      this.position := position;
      this.hireDate := hireDate;
    }

    method SetId(id: Option<int>)
      modifies this
      ensures this.id == id
      ensures Data() == old(Data()).(id := id)
    {
      this.id := id;
    }

    method SetFirstName(firstName: Option<string>)
      modifies this
      ensures this.firstName == firstName
      ensures Data() == old(Data()).(firstName := firstName)
    {
      this.firstName := firstName;
    }

    method SetLastName(lastName: Option<string>)
      modifies this
      ensures this.lastName == lastName
      ensures Data() == old(Data()).(lastName := lastName)
    {
      this.lastName := lastName;
    }

    method SetEmail(email: Option<string>)
      modifies this
      ensures this.email == email
      ensures Data() == old(Data()).(email := email)
    {
      this.email := email;
    }

    method SetPosition(position: Option<string>)
      modifies this
      ensures this.position == position
      ensures Data() == old(Data()).(position := position)
    {
      this.position := position;
    }

    method SetHireDate(hireDate: Option<Day>)
      modifies this
      ensures this.hireDate == hireDate
      ensures Data() == old(Data()).(hireDate := hireDate)
    {
      this.hireDate := hireDate;
    }
  }
}

=== FILE: employee_controller.dfy ===
/** The REST controller: validate (POST and PUT only), map the body to an entity, call
    the service, map the result back, choose the status. Exceptions are returned as
    Failure values for the global handler. */
module Controller {
  import opened Common
  import opened Entity
  import opened Dto
  import opened Service
  import opened ExceptionHandler

  // ---------------------------------------------------------------------------
  // The mapper, as a field-by-field copy

  function ToEntity(dto: EmployeeDto): EmployeeData
  {
    EmployeeData(dto.id, dto.firstName, dto.lastName, dto.email, dto.position, dto.hireDate)
  }

  function ToDto(e: EmployeeData): EmployeeDto
  {
    EmployeeDto(e.id, e.firstName, e.lastName, e.email, e.position, e.hireDate)
  }

  /** Mapping a body to an entity and back preserves all six fields. */
  lemma DtoRoundTrip(dto: EmployeeDto)
    ensures ToDto(ToEntity(dto)) == dto
  {
  }

  /** Mapping an entity to a body and back preserves all six fields. */
  lemma EntityRoundTrip(e: EmployeeData)
    ensures ToEntity(ToDto(e)) == e
  {
  }

  /** The stream map of getAllEmployees: same length, same order, each element mapped. */
  function ToDtos(es: seq<EmployeeData>): (ds: seq<EmployeeDto>)
    ensures |ds| == |es|
    ensures forall i | 0 <= i < |es| :: ds[i] == ToDto(es[i])
  {
    if es == [] then [] else [ToDto(es[0])] + ToDtos(es[1..])
  }

  /** modelMapper.map(dto, Employee.class): a new entity object. */
  method MapToEntity(dto: EmployeeDto) returns (e: Employee)
    ensures fresh(e) && e.Data() == ToEntity(dto)
  {
    e := new Employee(dto.id, dto.firstName, dto.lastName, dto.email, dto.position, dto.hireDate);
  }

  /** The response for a service result: the mapped record under the given status, or
      the exception passed on. */
  function Reply(res: Result<EmployeeData, Failure>, status: int): Result<ResponseEntity<EmployeeDto>, Failure>
  {
    match res
    case Success(e) => Success(ResponseEntity(status, Some(ToDto(e))))
    case Failure(f) => Failure(f)
  }

  class EmployeeController {
    const employeeService: EmployeeService

    constructor (employeeService: EmployeeService)
      ensures this.employeeService == employeeService
    {
      this.employeeService := employeeService;
    }

    /** The response built from an entity object the service returned. */
    method Respond(r: Result<Employee, Failure>, status: int) returns (resp: Result<ResponseEntity<EmployeeDto>, Failure>)
      ensures resp == Reply(if r.Success? then Success(r.value.Data()) else Failure(r.error), status)
    {
      match r
      case Success(e) => resp := Success(ResponseEntity(status, Some(ToDto(e.Data()))));
      case Failure(f) => resp := Failure(f);
    }

    /** POST /create: rejected before the service is reached when the body is invalid;
        otherwise whatever createEmployee does (the body's id included), answered with 201. */
    method CreateEmployee(employeeDTO: EmployeeDto, ctx: ValidationContext)
      returns (r: Result<ResponseEntity<EmployeeDto>, Failure>)
      requires employeeService.Valid()
      modifies employeeService
      ensures employeeService.Valid()
      ensures !IsValid(employeeDTO, ctx) ==>
        && r == Failure(MethodArgumentNotValid(Violations(employeeDTO, ctx)))
        && employeeService.State() == old(employeeService.State())
      ensures IsValid(employeeDTO, ctx) ==>
        var o := SaveOutcome(old(employeeService.State()), ToEntity(employeeDTO));
        employeeService.State() == o.store && r == Reply(o.result, CREATED)
    {
      var violations := Violations(employeeDTO, ctx);
      if violations != [] {
        return Failure(MethodArgumentNotValid(violations));
      }
      var employeeRequest := MapToEntity(employeeDTO);
      var employee := employeeService.CreateEmployee(employeeRequest);
      r := Respond(employee, CREATED);
    }

    /** GET /{id}: the mapped record with 200, or ResourceNotFound. */
    method GetEmployeeById(id: int) returns (r: Result<ResponseEntity<EmployeeDto>, Failure>)
      ensures id in employeeService.rows ==>
        r == Success(ResponseEntity(OK, Some(ToDto(employeeService.rows[id]))))
      ensures id !in employeeService.rows ==>
        r == Failure(ResourceNotFound(NotFoundMessage(id)))
    {
      var employee := employeeService.GetEmployeeById(id);
      r := Respond(employee, OK);
    }

    /** GET: every stored record mapped, in the order the service listed them, with 200. */
    method GetAllEmployees() returns (r: ResponseEntity<seq<EmployeeDto>>)
      requires employeeService.Valid()
      ensures r.status == OK && r.body.Some?
      ensures |r.body.value| == |employeeService.rows|
      ensures exists listed :: Enumerates(listed, employeeService.rows) && r.body.value == ToDtos(listed)
    {
      var employees := employeeService.GetAllEmployees();
      var employeeDTOS := ToDtos(employees);
      r := ResponseEntity(OK, Some(employeeDTOS));
    }

    /** PUT /{id}: rejected before the service is reached when the body is invalid;
        otherwise whatever updateEmployee does, answered with 200. */
    method UpdateEmployee(id: int, employeeDTO: EmployeeDto, ctx: ValidationContext)
      returns (r: Result<ResponseEntity<EmployeeDto>, Failure>)
      requires employeeService.Valid()
      modifies employeeService
      ensures employeeService.Valid()
      ensures !IsValid(employeeDTO, ctx) ==>
        && r == Failure(MethodArgumentNotValid(Violations(employeeDTO, ctx)))
        && employeeService.State() == old(employeeService.State())
      ensures IsValid(employeeDTO, ctx) ==>
        var o := UpdateOutcome(old(employeeService.State()), id, ToEntity(employeeDTO));
        employeeService.State() == o.store && r == Reply(o.result, OK)
    {
      var violations := Violations(employeeDTO, ctx);
      if violations != [] {
        return Failure(MethodArgumentNotValid(violations));
      }
      var employeeRequest := MapToEntity(employeeDTO);
      var employee := employeeService.UpdateEmployee(id, employeeRequest);
      r := Respond(employee, OK);
    }

    /** PATCH /{id}: no validation; any body, blank or malformed fields included, goes to
        partialUpdateEmployee; answered with 200. */
    method PatchEmployee(id: int, employeeDTO: EmployeeDto) returns (r: Result<ResponseEntity<EmployeeDto>, Failure>)
      requires employeeService.Valid()
      modifies employeeService
      ensures employeeService.Valid()
      ensures
        var o := PartialUpdateOutcome(old(employeeService.State()), id, ToEntity(employeeDTO));
        employeeService.State() == o.store && r == Reply(o.result, OK)
    {
      var employeeRequest := MapToEntity(employeeDTO);
      var employee := employeeService.PartialUpdateEmployee(id, employeeRequest);
      r := Respond(employee, OK);
    }

    /** DELETE /{id}: 204 with no body once the service has deleted the record. */
    method DeleteEmployee(id: int) returns (r: Result<ResponseEntity<EmployeeDto>, Failure>)
      requires employeeService.Valid()
      modifies employeeService
      ensures employeeService.Valid()
      ensures employeeService.State() == DeleteOutcome(old(employeeService.State()), id).store
      ensures id in old(employeeService.rows) ==> r == Success(ResponseEntity(NO_CONTENT, None))
      ensures id !in old(employeeService.rows) ==> r == Failure(ResourceNotFound(NotFoundMessage(id)))
    {
      var deleted := employeeService.DeleteEmployee(id);
      if deleted.Failure? {
        return Failure(deleted.error);
      }
      r := Success(ResponseEntity(NO_CONTENT, None));
    }
  }

  /** A PATCH body with a blank first name is stored as given: nothing validates it. */
  lemma PatchStoresBlankName(s: Store, id: int, dto: EmployeeDto, ctx: ValidationContext)
    requires StoreValid(s) && id in s.rows
    requires dto.firstName == Some("") && dto.email.None?
    ensures !IsValid(dto, ctx)
    ensures var o := PartialUpdateOutcome(s, id, ToEntity(dto));
      o.result.Success? && o.store.rows[id].firstName == Some("")
  {
  }

  /** A rejected POST or PUT body is answered with exactly one entry per failing field. */
  lemma RejectedBodyErrorKeys(dto: EmployeeDto, ctx: ValidationContext)
    ensures LastMessages(Violations(dto, ctx)).Keys == FailingFields(dto, ctx)
    ensures !IsValid(dto, ctx) ==> LastMessages(Violations(dto, ctx)) != map[]
  {
    LastMessagesKeys(Violations(dto, ctx));
    if !IsValid(dto, ctx) {
      var e := Violations(dto, ctx)[0];
      assert e.field in FieldsOf(Violations(dto, ctx));
    }
  }

  /** A field that breaks exactly one constraint is answered with that constraint's
      declared message in the 400 body's map. */
  lemma RejectedBodyMessage(dto: EmployeeDto, ctx: ValidationContext, e: FieldError)
    requires Breaks(dto, ctx, e)
    requires forall other | Breaks(dto, ctx, other) && other.field == e.field :: other == e
    ensures e.field in LastMessages(Violations(dto, ctx))
    ensures LastMessages(Violations(dto, ctx))[e.field] == e.message
  {
    var errs := Violations(dto, ctx);
    ViolationsAreBreaks(dto, ctx, e);
    forall other | other in errs && other.field == e.field
      ensures other.message == e.message
    {
      ViolationsAreBreaks(dto, ctx, other);
    }
    LastMessagesSoleMessage(errs, e.field, e.message);
  }

  /** A missing first name is answered with "First name is mandatory". */
  lemma MissingFirstNameIsMandatory(dto: EmployeeDto, ctx: ValidationContext)
    requires dto.firstName.None?
    ensures var m := LastMessages(Violations(dto, ctx));
      "firstName" in m && m["firstName"] == FirstNameMandatory
  {
    RejectedBodyMessage(dto, ctx, FieldError("firstName", FirstNameMandatory));
  }

  /** A missing last name is answered with "Last name is mandatory". */
  lemma MissingLastNameIsMandatory(dto: EmployeeDto, ctx: ValidationContext)
    requires dto.lastName.None?
    ensures var m := LastMessages(Violations(dto, ctx));
      "lastName" in m && m["lastName"] == LastNameMandatory
  {
    RejectedBodyMessage(dto, ctx, FieldError("lastName", LastNameMandatory));
  }

  /** A missing email is answered with "Email is mandatory". */
  lemma MissingEmailIsMandatory(dto: EmployeeDto, ctx: ValidationContext)
    requires dto.email.None?
    ensures var m := LastMessages(Violations(dto, ctx));
      "email" in m && m["email"] == EmailMandatory
  {
    RejectedBodyMessage(dto, ctx, FieldError("email", EmailMandatory));
  }

  /** A missing position is answered with "Position is mandatory". */
  lemma MissingPositionIsMandatory(dto: EmployeeDto, ctx: ValidationContext)
    requires dto.position.None?
    ensures var m := LastMessages(Violations(dto, ctx));
      "position" in m && m["position"] == PositionMandatory
  {
    RejectedBodyMessage(dto, ctx, FieldError("position", PositionMandatory));
  }
}

=== FILE: employee_dto.dfy ===
/** The transport shape of an employee and the bean-validation constraints declared on it. */
module Dto {
  import opened Common

  /** The request and response body of the employee API. Every field may be null. */
  datatype EmployeeDto = EmployeeDto(
    id: Option<int>,
    firstName: Option<string>,
    lastName: Option<string>,
    email: Option<string>,
    position: Option<string>,
    hireDate: Option<Day>)

  /** What the validator consults besides the body: the current date (for @PastOrPresent)
      and the email syntax rules of the validation library (for @Email). */
  datatype ValidationContext = ValidationContext(today: Day, isEmail: string -> bool)

  const FirstNameMax := 50
  const LastNameMax := 50
  const PositionMax := 100

  const FirstNameMandatory := "First name is mandatory"
  const FirstNameTooLong := "First name must be less than 50 characters"
  const LastNameMandatory := "Last name is mandatory"
  const LastNameTooLong := "Last name must be less than 50 characters"
  const EmailInvalid := "Email should be valid"
  const EmailMandatory := "Email is mandatory"
  const PositionMandatory := "Position is mandatory"
  const PositionTooLong := "Position must be less than 100 characters"
  const HireDateInFuture := "Hire date cannot be in the future"

  // ---------------------------------------------------------------------------
  // The constraints as the validation library evaluates them

  /** Java's String.trim: drops every leading and trailing character up to U+0020. */
  function TrimLeading(s: string): string
  {
    if |s| > 0 && s[0] <= ' ' then TrimLeading(s[1..]) else s
  }

  function TrimTrailing(s: string): string
  {
    if |s| > 0 && s[|s| - 1] <= ' ' then TrimTrailing(s[..|s| - 1]) else s
  }

  function Trim(s: string): string
  {
    TrimTrailing(TrimLeading(s))
  }

  /** @NotBlank: not null, and something is left after trimming. */
  predicate NotBlank(v: Option<string>)
  {
    v.Some? && |Trim(v.value)| > 0
  }

  /** @Size(max = …): null passes; otherwise the length is at most max. */
  predicate SizeAtMost(v: Option<string>, max: nat)
  {
    v.None? || |v.value| <= max
  }

  /** @Email: null passes; otherwise the library's syntax rules decide. */
  predicate EmailSyntax(v: Option<string>, isEmail: string -> bool)
  {
    v.None? || isEmail(v.value)
  }

  /** @PastOrPresent: null passes; otherwise the date is not after today. */
  predicate PastOrPresent(v: Option<Day>, today: Day)
  {
    v.None? || v.value <= today
  }

  function Check(ok: bool, field: string, message: string): seq<FieldError>
  {
    if ok then [] else [FieldError(field, message)]
  }

  // ---------------------------------------------------------------------------
  // The same constraints stated field by field, without trimming

  /** A string is blank exactly when it has no character above U+0020. */
  predicate HasVisibleChar(s: string)
  {
    exists i | 0 <= i < |s| :: s[i] > ' '
  }

  predicate FirstNameValid(v: Option<string>)
  {
    v.Some? && HasVisibleChar(v.value) && |v.value| <= 50
  }

  predicate LastNameValid(v: Option<string>)
  {
    v.Some? && HasVisibleChar(v.value) && |v.value| <= 50
  }

  predicate EmailValid(v: Option<string>, isEmail: string -> bool)
  {
    v.Some? && HasVisibleChar(v.value) && isEmail(v.value)
  }

  predicate PositionValid(v: Option<string>)
  {
    v.Some? && HasVisibleChar(v.value) && |v.value| <= 100
  }

  /** The properties whose constraints the body breaks; the id carries none. */
  function FailingFields(dto: EmployeeDto, ctx: ValidationContext): set<string>
  {
    (if FirstNameValid(dto.firstName) then {} else {"firstName"})
    + (if LastNameValid(dto.lastName) then {} else {"lastName"})
    + (if EmailValid(dto.email, ctx.isEmail) then {} else {"email"})
    + (if PositionValid(dto.position) then {} else {"position"})
    + (if PastOrPresent(dto.hireDate, ctx.today) then {} else {"hireDate"})
  }

  /** A body passes @Valid when each field passes on its own. */
  predicate IsValid(dto: EmployeeDto, ctx: ValidationContext)
  {
    && FirstNameValid(dto.firstName)
    && LastNameValid(dto.lastName)
    && EmailValid(dto.email, ctx.isEmail)
    && PositionValid(dto.position)
    && PastOrPresent(dto.hireDate, ctx.today)
  }

  // ---------------------------------------------------------------------------
  // Trimming leaves something exactly when the string has a visible character

  lemma {:induction false} TrimLeadingEmpty(s: string)
    ensures TrimLeading(s) == [] <==> !HasVisibleChar(s)
    ensures TrimLeading(s) != [] ==> TrimLeading(s)[0] > ' '
  {
    if |s| > 0 && s[0] <= ' ' {
      TrimLeadingEmpty(s[1..]);
      assert HasVisibleChar(s) <==> HasVisibleChar(s[1..]) by {
        if HasVisibleChar(s) {
          var i :| 0 <= i < |s| && s[i] > ' ';
          assert s[1..][i - 1] > ' ';
        }
        if HasVisibleChar(s[1..]) {
          var i :| 0 <= i < |s[1..]| && s[1..][i] > ' ';
          assert s[i + 1] > ' ';
        }
      }
    } else if |s| > 0 {
      assert s[0] > ' ';
    }
  }

  lemma {:induction false} TrimTrailingKeepsHead(s: string)
    requires |s| > 0 && s[0] > ' '
    ensures TrimTrailing(s) != []
  {
    if s[|s| - 1] <= ' ' {
      TrimTrailingKeepsHead(s[..|s| - 1]);
    }
  }

  lemma TrimEmptyIff(s: string)
    ensures |Trim(s)| > 0 <==> HasVisibleChar(s)
  {
    TrimLeadingEmpty(s);
    if TrimLeading(s) != [] {
      TrimTrailingKeepsHead(TrimLeading(s));
    }
  }

  lemma NotBlankIff(v: Option<string>)
    ensures NotBlank(v) <==> v.Some? && HasVisibleChar(v.value)
  {
    if v.Some? {
      TrimEmptyIff(v.value);
    }
  }

  // ---------------------------------------------------------------------------
  // The validator

  /** A non-null string with a visible character: what @NotBlank accepts. */
  predicate HasText(v: Option<string>)
  {
    v.Some? && HasVisibleChar(v.value)
  }

  /** The violations of one field. Each constraint contributes its own message exactly
      when that constraint is broken, and nothing else is reported. */
  function FirstNameErrors(v: Option<string>): (errs: seq<FieldError>)
    ensures FieldError("firstName", FirstNameMandatory) in errs <==> !HasText(v)
    ensures FieldError("firstName", FirstNameTooLong) in errs <==> v.Some? && |v.value| > FirstNameMax
    ensures forall e | e in errs ::
      e == FieldError("firstName", FirstNameMandatory) || e == FieldError("firstName", FirstNameTooLong)
    ensures FieldsOf(errs) == if FirstNameValid(v) then {} else {"firstName"}
  {
    NotBlankIff(v);
    Check(NotBlank(v), "firstName", FirstNameMandatory)
    + Check(SizeAtMost(v, FirstNameMax), "firstName", FirstNameTooLong)
  }

  function LastNameErrors(v: Option<string>): (errs: seq<FieldError>)
    ensures FieldError("lastName", LastNameMandatory) in errs <==> !HasText(v)
    ensures FieldError("lastName", LastNameTooLong) in errs <==> v.Some? && |v.value| > LastNameMax
    ensures forall e | e in errs ::
      e == FieldError("lastName", LastNameMandatory) || e == FieldError("lastName", LastNameTooLong)
    ensures FieldsOf(errs) == if LastNameValid(v) then {} else {"lastName"}
  {
    NotBlankIff(v);
    Check(NotBlank(v), "lastName", LastNameMandatory)
    + Check(SizeAtMost(v, LastNameMax), "lastName", LastNameTooLong)
  }

  function EmailErrors(v: Option<string>, isEmail: string -> bool): (errs: seq<FieldError>)
    ensures FieldError("email", EmailInvalid) in errs <==> v.Some? && !isEmail(v.value)
    ensures FieldError("email", EmailMandatory) in errs <==> !HasText(v)
    ensures forall e | e in errs ::
      e == FieldError("email", EmailInvalid) || e == FieldError("email", EmailMandatory)
    ensures FieldsOf(errs) == if EmailValid(v, isEmail) then {} else {"email"}
  {
    NotBlankIff(v);
    Check(EmailSyntax(v, isEmail), "email", EmailInvalid)
    + Check(NotBlank(v), "email", EmailMandatory)
  }

  function PositionErrors(v: Option<string>): (errs: seq<FieldError>)
    ensures FieldError("position", PositionMandatory) in errs <==> !HasText(v)
    ensures FieldError("position", PositionTooLong) in errs <==> v.Some? && |v.value| > PositionMax
    ensures forall e | e in errs ::
      e == FieldError("position", PositionMandatory) || e == FieldError("position", PositionTooLong)
    ensures FieldsOf(errs) == if PositionValid(v) then {} else {"position"}
  {
    NotBlankIff(v);
    Check(NotBlank(v), "position", PositionMandatory)
    + Check(SizeAtMost(v, PositionMax), "position", PositionTooLong)
  }

  function HireDateErrors(v: Option<Day>, today: Day): (errs: seq<FieldError>)
    ensures FieldError("hireDate", HireDateInFuture) in errs <==> v.Some? && v.value > today
    ensures forall e | e in errs :: e == FieldError("hireDate", HireDateInFuture)
    ensures FieldsOf(errs) == if PastOrPresent(v, today) then {} else {"hireDate"}
  {
    Check(PastOrPresent(v, today), "hireDate", HireDateInFuture)
  }

  /** The field errors a body deserves, one per broken constraint, each with the message
      its annotation declares. */
  predicate Breaks(dto: EmployeeDto, ctx: ValidationContext, e: FieldError)
  {
    || (e == FieldError("firstName", FirstNameMandatory) && !HasText(dto.firstName))
    || (e == FieldError("firstName", FirstNameTooLong) && dto.firstName.Some? && |dto.firstName.value| > FirstNameMax)
    || (e == FieldError("lastName", LastNameMandatory) && !HasText(dto.lastName))
    || (e == FieldError("lastName", LastNameTooLong) && dto.lastName.Some? && |dto.lastName.value| > LastNameMax)
    || (e == FieldError("email", EmailInvalid) && dto.email.Some? && !ctx.isEmail(dto.email.value))
    || (e == FieldError("email", EmailMandatory) && !HasText(dto.email))
    || (e == FieldError("position", PositionMandatory) && !HasText(dto.position))
    || (e == FieldError("position", PositionTooLong) && dto.position.Some? && |dto.position.value| > PositionMax)
    || (e == FieldError("hireDate", HireDateInFuture) && dto.hireDate.Some? && dto.hireDate.value > ctx.today)
  }

  /** Every constraint of every field is evaluated (no short cut on the first failure);
      each failure yields one FieldError. The order here is declaration order. */
  function Violations(dto: EmployeeDto, ctx: ValidationContext): (errs: seq<FieldError>)
    ensures FieldsOf(errs) == FailingFields(dto, ctx)
    ensures errs == [] <==> IsValid(dto, ctx)
  {
    var first := FirstNameErrors(dto.firstName);
    var last := LastNameErrors(dto.lastName);
    var mail := EmailErrors(dto.email, ctx.isEmail);
    var pos := PositionErrors(dto.position);
    var hire := HireDateErrors(dto.hireDate, ctx.today);
    FieldsOfAppend(first, last);
    FieldsOfAppend(first + last, mail);
    FieldsOfAppend(first + last + mail, pos);
    FieldsOfAppend(first + last + mail + pos, hire);
    var errs := first + last + mail + pos + hire;
    assert errs == [] <==> FieldsOf(errs) == {} by {
      if errs != [] { assert errs[0].field in FieldsOf(errs); }
    }
    errs
  }

  /** The validator reports exactly the broken constraints, each with its own message. */
  lemma ViolationsAreBreaks(dto: EmployeeDto, ctx: ValidationContext, e: FieldError)
    ensures e in Violations(dto, ctx) <==> Breaks(dto, ctx, e)
  {
    var first := FirstNameErrors(dto.firstName);
    var last := LastNameErrors(dto.lastName);
    var mail := EmailErrors(dto.email, ctx.isEmail);
    var pos := PositionErrors(dto.position);
    var hire := HireDateErrors(dto.hireDate, ctx.today);
    assert Violations(dto, ctx) == first + last + mail + pos + hire;
    assert e in Violations(dto, ctx) <==>
      e in first || e in last || e in mail || e in pos || e in hire;
  }

  // ---------------------------------------------------------------------------
  // Consequences

  /** Exactly 50 characters are accepted for a first name; 51 are not. */
  lemma FirstNameLengthBoundary(dto: EmployeeDto, ctx: ValidationContext)
    requires dto.firstName.Some? && HasVisibleChar(dto.firstName.value)
    ensures |dto.firstName.value| == 50 ==> "firstName" !in FailingFields(dto, ctx)
    ensures |dto.firstName.value| == 51 ==> "firstName" in FailingFields(dto, ctx)
  {
  }

  /** A missing hire date is never an error. */
  lemma NullHireDateAccepted(dto: EmployeeDto, ctx: ValidationContext)
    requires dto.hireDate.None?
    ensures "hireDate" !in FieldsOf(Violations(dto, ctx))
  {
  }

  /** The id carries no constraint: changing it never changes the verdict. */
  lemma IdUnconstrained(dto: EmployeeDto, ctx: ValidationContext, id: Option<int>)
    ensures Violations(dto.(id := id), ctx) == Violations(dto, ctx)
  {
  }

  /** An empty first name, a malformed email and a hire date of tomorrow are reported on
      exactly those three fields; a well-formed last name and position pass. */
  lemma ExampleRejection(ctx: ValidationContext)
    requires !ctx.isEmail("bad-email")
    ensures var errs := Violations(
              EmployeeDto(None, Some(""), Some("Smith"), Some("bad-email"), Some("Eng"), Some(ctx.today + 1)),
              ctx);
      && FieldsOf(errs) == {"firstName", "email", "hireDate"}
      && errs == [FieldError("firstName", FirstNameMandatory), FieldError("email", EmailInvalid),
                  FieldError("hireDate", HireDateInFuture)]
  {
    assert "Smith"[0] > ' ';
    assert "bad-email"[0] > ' ';
    assert "Eng"[0] > ' ';
  }
}

=== FILE: employee_service.dfy ===
/** The employee store service and the keyed table behind it.

    The repository is modelled as a map from id to row plus the next identity value,
    with the behaviour of save as a JPA repository has it: a row whose id is null (or
    names no stored row) is inserted under a freshly generated id; a row whose id is
    stored replaces that row. The column email is declared unique, so a save that would
    give two rows the same non-null email fails and changes nothing. */
module Service {
  import opened Common
  import opened Entity

  /** The table: rows by id, and the next value of the identity column. */
  datatype Store = Store(rows: map<int, EmployeeData>, nextId: int)

  /** What a service operation leaves behind: the table afterwards, and what it returns
      or throws. */
  datatype Outcome<+T> = Outcome(store: Store, result: Result<T, Failure>)

  const DuplicateEmailMessage := "could not execute statement: duplicate key value violates unique constraint on column email"

  function NotFoundMessage(id: int): string
  {
    "Employee not found with id " + IntText(id)
  }

  /** No two rows share a non-null email (the unique column; SQL lets nulls repeat). */
  predicate EmailsUnique(rows: map<int, EmployeeData>)
  {
    forall j, k | j in rows && k in rows && j != k :: rows[j].email.None? || rows[j].email != rows[k].email
  }

  /** Every row is stored under its own positive id, ids below the next identity value
      (so generated ids are never reused), and emails are unique. */
  predicate StoreValid(s: Store)
  {
    && 0 < s.nextId
    && (forall k | k in s.rows :: 0 < k < s.nextId && s.rows[k].id == Some(k))
    && EmailsUnique(s.rows)
  }

  // ---------------------------------------------------------------------------
  // The repository calls the service makes

  /** The row a save writes: the stored row named by the id, or a newly generated id. */
  function SaveKey(s: Store, d: EmployeeData): int
  {
    if d.id.Some? && d.id.value in s.rows then d.id.value else s.nextId
  }

  /** Some row other than key already holds this non-null email. */
  predicate EmailTaken(rows: map<int, EmployeeData>, email: Option<string>, key: int)
  {
    email.Some? && exists k | k in rows && k != key :: rows[k].email == email
  }

  /** save: insert or replace, refused by the unique-email constraint. */
  function SaveOutcome(s: Store, d: EmployeeData): (o: Outcome<EmployeeData>)
    ensures StoreValid(s) ==> StoreValid(o.store)
    ensures o.result.Failure? <==> EmailTaken(s.rows, d.email, SaveKey(s, d))
    ensures o.result.Failure? ==> o.store == s && o.result.error.Other?
    ensures o.result.Success? ==>
      var e := o.result.value;
      && e.id == Some(SaveKey(s, d))
      && e.(id := d.id) == d
      && o.store.rows == s.rows[SaveKey(s, d) := e]
    ensures StoreValid(s) && d.id.Some? && d.id.value in s.rows ==> o.store.nextId == s.nextId
    ensures o.result.Success? && (d.id.None? || d.id.value !in s.rows) ==> o.store.nextId == s.nextId + 1
  {
    var key := SaveKey(s, d);
    if EmailTaken(s.rows, d.email, key) then
      Outcome(s, Failure(Other(DuplicateEmailMessage)))
    else
      var e := d.(id := Some(key));
      Outcome(Store(s.rows[key := e], if key == s.nextId then s.nextId + 1 else s.nextId), Success(e))
  }

  /** findById(id).orElseThrow(…): the stored row, or ResourceNotFound naming the id. */
  function Lookup(s: Store, id: int): (r: Result<EmployeeData, Failure>)
    ensures r.Success? <==> id in s.rows
    ensures r.Success? ==> r.value == s.rows[id]
    ensures r.Failure? ==> r.error == ResourceNotFound(NotFoundMessage(id))
  {
    if id in s.rows then Success(s.rows[id]) else Failure(ResourceNotFound(NotFoundMessage(id)))
  }

  /** A list that holds each stored row exactly once, in no particular order. */
  predicate Enumerates(all: seq<EmployeeData>, rows: map<int, EmployeeData>)
  {
    && |all| == |rows|
    && (forall i | 0 <= i < |all| :: all[i].id.Some? && all[i].id.value in rows && rows[all[i].id.value] == all[i])
    && (forall i, j | 0 <= i < j < |all| :: all[i].id != all[j].id)
    && (forall k | k in rows :: rows[k] in all)
  }

  // ---------------------------------------------------------------------------
  // The service operations, as transitions of the table

  /** The five setter calls of updateEmployee: every mutable field from the details,
      nulls included; the id is kept. */
  function Overwrite(e: EmployeeData, details: EmployeeData): EmployeeData
  {
    e.(firstName := details.firstName, lastName := details.lastName, email := details.email,
       position := details.position, hireDate := details.hireDate)
  }

  function Pick<T>(given: Option<T>, kept: Option<T>): Option<T>
  {
    if given.Some? then given else kept
  }

  /** The five guarded setter calls of partialUpdateEmployee. */
  function Patch(e: EmployeeData, details: EmployeeData): EmployeeData
  {
    e.(firstName := Pick(details.firstName, e.firstName),
       lastName := Pick(details.lastName, e.lastName),
       email := Pick(details.email, e.email),
       position := Pick(details.position, e.position),
       hireDate := Pick(details.hireDate, e.hireDate))
  }

  function UpdateOutcome(s: Store, id: int, details: EmployeeData): (o: Outcome<EmployeeData>)
    ensures StoreValid(s) ==> StoreValid(o.store)
    ensures id !in s.rows ==> o == Outcome(s, Failure(ResourceNotFound(NotFoundMessage(id))))
    ensures StoreValid(s) && id in s.rows ==>
      && (o.result.Failure? <==> EmailTaken(s.rows, details.email, id))
      && (o.result.Failure? ==> o.store == s)
      && (o.result.Success? ==>
            var e := o.result.value;
            && e.id == Some(id)
            && e.firstName == details.firstName && e.lastName == details.lastName
            && e.email == details.email && e.position == details.position
            && e.hireDate == details.hireDate
            && o.store == Store(s.rows[id := e], s.nextId))
  {
    match Lookup(s, id)
    case Failure(f) => Outcome(s, Failure(f))
    case Success(e) => SaveOutcome(s, Overwrite(e, details))
  }

  function PartialUpdateOutcome(s: Store, id: int, details: EmployeeData): (o: Outcome<EmployeeData>)
    ensures StoreValid(s) ==> StoreValid(o.store)
    ensures id !in s.rows ==> o == Outcome(s, Failure(ResourceNotFound(NotFoundMessage(id))))
    ensures StoreValid(s) && id in s.rows ==>
      && (o.result.Failure? <==> EmailTaken(s.rows, details.email, id))
      && (o.result.Failure? ==> o.store == s)
      && (o.result.Success? ==>
            var old_ := s.rows[id];
            var e := o.result.value;
            && e.id == Some(id)
            && e.firstName == (if details.firstName.Some? then details.firstName else old_.firstName)
            && e.lastName == (if details.lastName.Some? then details.lastName else old_.lastName)
            && e.email == (if details.email.Some? then details.email else old_.email)
            && e.position == (if details.position.Some? then details.position else old_.position)
            && e.hireDate == (if details.hireDate.Some? then details.hireDate else old_.hireDate)
            && o.store == Store(s.rows[id := e], s.nextId))
  {
    match Lookup(s, id)
    case Failure(f) => Outcome(s, Failure(f))
    case Success(e) => SaveOutcome(s, Patch(e, details))
  }

  function DeleteOutcome(s: Store, id: int): (o: Outcome<()>)
    ensures StoreValid(s) ==> StoreValid(o.store)
    ensures id !in s.rows ==> o == Outcome(s, Failure(ResourceNotFound(NotFoundMessage(id))))
    ensures id in s.rows ==> o == Outcome(Store(s.rows - {id}, s.nextId), Success(()))
  {
    match Lookup(s, id)
    case Failure(f) => Outcome(s, Failure(f))
    case Success(_) => Outcome(s.(rows := s.rows - {id}), Success(()))
  }

  // ---------------------------------------------------------------------------
  // Properties of the operations

  /** Create, then get by the returned id, gives back the given fields with the id filled in. */
  lemma CreateThenGet(s: Store, d: EmployeeData)
    requires StoreValid(s)
    ensures var o := SaveOutcome(s, d);
      o.result.Success? ==>
        && o.result.value.id.Some?
        && Lookup(o.store, o.result.value.id.value) == Success(o.result.value)
        && o.result.value.(id := d.id) == d
  {
  }

  /** The identity value a consistent table hands out next names no stored row. */
  lemma NextIdFree(s: Store)
    requires StoreValid(s)
    ensures s.nextId !in s.rows
  {
  }

  /** Create without an id (or with an id no row has) adds one row under a new id and
      leaves every existing row as it was. */
  lemma CreateWithoutStoredIdInserts(s: Store, d: EmployeeData)
    requires StoreValid(s)
    requires d.id.None? || d.id.value !in s.rows
    requires !EmailTaken(s.rows, d.email, s.nextId)
    ensures var o := SaveOutcome(s, d);
      && o.result.Success?
      && o.result.value.id == Some(s.nextId)
      && o.store.rows.Keys == s.rows.Keys + {s.nextId}
      && |o.store.rows| == |s.rows| + 1
      && (forall k | k in s.rows :: o.store.rows[k] == s.rows[k])
  {
    NextIdFree(s);
  }

  /** createEmployee does not clear a client-supplied id: when it names a stored row, that
      row is replaced by the request and no row is added. */
  lemma CreateWithStoredIdReplaces(s: Store, d: EmployeeData)
    requires StoreValid(s)
    requires d.id.Some? && d.id.value in s.rows
    requires !EmailTaken(s.rows, d.email, d.id.value)
    ensures var o := SaveOutcome(s, d);
      && o.result == Success(d)
      && o.store.rows == s.rows[d.id.value := d]
      && |o.store.rows| == |s.rows|
  {
    var o := SaveOutcome(s, d);
    assert o.store.rows.Keys == s.rows.Keys;
  }

  /** A second record with an email already in use is refused and the first is kept. */
  lemma DuplicateEmailRefused(s: Store, d: EmployeeData, k: int)
    requires StoreValid(s)
    requires k in s.rows && d.email.Some? && s.rows[k].email == d.email
    requires d.id != Some(k)
    ensures var o := SaveOutcome(s, d);
      && o.result.Failure? && o.result.error.Other?
      && o.store == s
      && Lookup(o.store, k) == Success(s.rows[k])
  {
    assert k != SaveKey(s, d);
  }

  /** Update, partial update and delete of an id that is not stored throw ResourceNotFound
      and leave the table as it was. */
  lemma AbsentIdFails(s: Store, id: int, details: EmployeeData)
    requires id !in s.rows
    ensures UpdateOutcome(s, id, details) == Outcome(s, Failure(ResourceNotFound(NotFoundMessage(id))))
    ensures PartialUpdateOutcome(s, id, details) == Outcome(s, Failure(ResourceNotFound(NotFoundMessage(id))))
    ensures DeleteOutcome(s, id) == Outcome(s, Failure(ResourceNotFound(NotFoundMessage(id))))
  {
  }

  /** The not-found message determines the id it was raised for. */
  lemma NotFoundMessageNamesId(m: int, n: int)
    requires NotFoundMessage(m) == NotFoundMessage(n)
    ensures m == n
  {
    var prefix := "Employee not found with id ";
    assert NotFoundMessage(m)[|prefix|..] == IntText(m);
    assert NotFoundMessage(n)[|prefix|..] == IntText(n);
    IntTextInjective(m, n);
  }

  /** Applying the same full update twice leaves the table as applying it once. */
  lemma UpdateIdempotent(s: Store, id: int, details: EmployeeData)
    requires StoreValid(s)
    ensures var once := UpdateOutcome(s, id, details);
      UpdateOutcome(once.store, id, details) == once
  {
    var once := UpdateOutcome(s, id, details);
    if id in s.rows && once.result.Success? {
      var e := once.result.value;
      var s' := once.store;
      assert s'.rows[id] == e;
      assert Overwrite(e, details) == e;
      assert EmailTaken(s'.rows, details.email, id) <==> EmailTaken(s.rows, details.email, id) by {
        forall k | k in s'.rows && k != id ensures k in s.rows && s'.rows[k] == s.rows[k] { }
        forall k | k in s.rows && k != id ensures k in s'.rows { }
      }
      assert s'.rows[id := e] == s'.rows;
    }
  }

  /** A partial update whose fields are all null rewrites the row with its own values. */
  lemma EmptyPatchChangesNothing(s: Store, id: int, details: EmployeeData)
    requires StoreValid(s) && id in s.rows
    requires details.firstName.None? && details.lastName.None? && details.email.None?
    requires details.position.None? && details.hireDate.None?
    ensures PartialUpdateOutcome(s, id, details) == Outcome(s, Success(s.rows[id]))
  {
    assert Patch(s.rows[id], details) == s.rows[id];
    assert !EmailTaken(s.rows, s.rows[id].email, id);
    assert s.rows[id := s.rows[id]] == s.rows;
  }

  /** Update, partial update and delete touch no row but the one named. */
  lemma OtherRowsUntouched(s: Store, id: int, details: EmployeeData, k: int)
    requires StoreValid(s) && k in s.rows && k != id
    ensures var u := UpdateOutcome(s, id, details).store; k in u.rows && u.rows[k] == s.rows[k]
    ensures var p := PartialUpdateOutcome(s, id, details).store; k in p.rows && p.rows[k] == s.rows[k]
    ensures var d := DeleteOutcome(s, id).store; k in d.rows && d.rows[k] == s.rows[k]
  {
  }

  /** After a delete, the id is gone: a get of it throws ResourceNotFound. */
  lemma DeleteThenGetFails(s: Store, id: int)
    requires id in s.rows
    ensures var o := DeleteOutcome(s, id);
      && o.result.Success?
      && o.store.rows.Keys == s.rows.Keys - {id}
      && Lookup(o.store, id) == Failure(ResourceNotFound(NotFoundMessage(id)))
  {
  }

  // ---------------------------------------------------------------------------
  // The service object


  /** The entity object a call returned mirrors the expected row, or the call threw the
      expected exception. */
  ghost predicate Returns(r: Result<Employee, Failure>, expected: Result<EmployeeData, Failure>)
    reads if r.Success? then {r.value} else {}
  {
    match r
    case Success(e) => expected == Success(e.Data())
    case Failure(f) => expected == Failure(f)
  }

  /** EmployeeServiceImpl over its repository. */
  class EmployeeService {
    var rows: map<int, EmployeeData>
    var nextId: int

    function State(): Store
      reads this
    {
      Store(rows, nextId)
    }

    ghost predicate Valid()
      reads this
    {
      StoreValid(State())
    }

    /** The service is built over a repository holding a consistent table. */
    constructor (repository: Store)
      requires StoreValid(repository)
      ensures Valid() && State() == repository
    {
      rows := repository.rows;
      nextId := repository.nextId;
    }

    /** The repository's save; it hands back a new entity object holding the stored row. */
    method Save(entity: Employee) returns (r: Result<Employee, Failure>)
      requires Valid()
      modifies this
      ensures Valid()
      ensures State() == SaveOutcome(old(State()), old(entity.Data())).store
      ensures Returns(r, SaveOutcome(old(State()), old(entity.Data())).result)
      ensures r.Success? ==> fresh(r.value)
    {
      var o := SaveOutcome(State(), entity.Data());
      rows, nextId := o.store.rows, o.store.nextId;
      match o.result
      case Failure(f) =>
        r := Failure(f);
      case Success(e) =>
        var saved := new Employee(e.id, e.firstName, e.lastName, e.email, e.position, e.hireDate);
        r := Success(saved);
    }

    /** createEmployee: no checks of its own; whatever save does. */
    method CreateEmployee(employee: Employee) returns (r: Result<Employee, Failure>)
      requires Valid()
      modifies this
      ensures Valid()
      ensures State() == SaveOutcome(old(State()), old(employee.Data())).store
      ensures Returns(r, SaveOutcome(old(State()), old(employee.Data())).result)
      ensures r.Success? ==> fresh(r.value)
    {
      r := Save(employee);
    }

    /** getEmployeeById: a new entity object for the stored row, or ResourceNotFound. */
    method GetEmployeeById(id: int) returns (r: Result<Employee, Failure>)
      ensures Returns(r, Lookup(State(), id))
      ensures r.Success? ==> fresh(r.value)
    {
      if id in rows {
        var d := rows[id];
        var employee := new Employee(d.id, d.firstName, d.lastName, d.email, d.position, d.hireDate);
        r := Success(employee);
      } else {
        r := Failure(ResourceNotFound(NotFoundMessage(id)));
      }
    }

    /** getAllEmployees: every stored row once, in no promised order. */
    method GetAllEmployees() returns (all: seq<EmployeeData>)
      requires Valid()
      ensures Enumerates(all, rows)
    {
      all := [];
      var pending := rows.Keys;
      while pending != {}
        invariant pending <= rows.Keys
        invariant |all| + |pending| == |rows|
        invariant forall i | 0 <= i < |all| ::
          all[i].id.Some? && all[i].id.value in rows && all[i].id.value !in pending
          && rows[all[i].id.value] == all[i]
        invariant forall i, j | 0 <= i < j < |all| :: all[i].id != all[j].id
        invariant forall k | k in rows && k !in pending :: rows[k] in all
        decreases |pending|
      {
        // A set other than {} has a member: without one it would equal {}.
        if forall k :: k !in pending {
          assert false;
        }
        var k :| k in pending;
        all := all + [rows[k]];
        pending := pending - {k};
      }
    }

    /** updateEmployee: fetch, overwrite the five mutable fields with setters, save. */
    method UpdateEmployee(id: int, employeeDetails: Employee) returns (r: Result<Employee, Failure>)
      requires Valid()
      modifies this
      ensures Valid()
      ensures State() == UpdateOutcome(old(State()), id, old(employeeDetails.Data())).store
      ensures Returns(r, UpdateOutcome(old(State()), id, old(employeeDetails.Data())).result)
    {
      var found := GetEmployeeById(id);
      if found.Failure? {
        return Failure(found.error);
      }
      var employee := found.value;
      employee.SetFirstName(employeeDetails.firstName);
      employee.SetLastName(employeeDetails.lastName);
      employee.SetEmail(employeeDetails.email);
      employee.SetPosition(employeeDetails.position);
      employee.SetHireDate(employeeDetails.hireDate);
      assert employee.Data() == Overwrite(rows[id], employeeDetails.Data());
      r := Save(employee);
    }

    /** partialUpdateEmployee: fetch, set each field whose detail is non-null, save. */
    method PartialUpdateEmployee(id: int, employeeDetails: Employee) returns (r: Result<Employee, Failure>)
      requires Valid()
      modifies this
      ensures Valid()
      ensures State() == PartialUpdateOutcome(old(State()), id, old(employeeDetails.Data())).store
      ensures Returns(r, PartialUpdateOutcome(old(State()), id, old(employeeDetails.Data())).result)
    {
      var found := GetEmployeeById(id);
      if found.Failure? {
        return Failure(found.error);
      }
      var employee := found.value;
      if employeeDetails.firstName.Some? {
        employee.SetFirstName(employeeDetails.firstName);
      }
      if employeeDetails.lastName.Some? {
        employee.SetLastName(employeeDetails.lastName);
      }
      if employeeDetails.email.Some? {
        employee.SetEmail(employeeDetails.email);
      }
      if employeeDetails.position.Some? {
        employee.SetPosition(employeeDetails.position);
      }
      if employeeDetails.hireDate.Some? {
        employee.SetHireDate(employeeDetails.hireDate);
      }
      assert employee.Data() == Patch(rows[id], employeeDetails.Data());
      r := Save(employee);
    }

    /** deleteEmployee: fetch (ResourceNotFound if absent), then remove that row. */
    method DeleteEmployee(id: int) returns (r: Result<(), Failure>)
      requires Valid()
      modifies this
      ensures Valid()
      ensures State() == DeleteOutcome(old(State()), id).store
      ensures r == DeleteOutcome(old(State()), id).result
    {
      var found := GetEmployeeById(id);
      if found.Failure? {
        return Failure(found.error);
      }
      var employee := found.value;
      rows := rows - {employee.id.value};
      r := Success(());
    }
  }
}

=== FILE: exception_handler.dfy ===
/** The API's global exception handler: each exception kind becomes a status and an
    error body. Timestamps are left out. */
module ExceptionHandler {
  import opened Common

  const ValidationFailedMessage := "Validation Failed"

  /** ErrorDetails without its timestamp: the exception message and the request description. */
  datatype ErrorDetails = ErrorDetails(message: string, details: string)

  /** ValidationErrorDetails without its timestamp: a fixed message and one message per field. */
  datatype ValidationErrorDetails = ValidationErrorDetails(message: string, errors: map<string, string>)

  /** The body a handler writes. */
  datatype ErrorBody =
    | Plain(plain: ErrorDetails)
    | Fields(fields: ValidationErrorDetails)

  /** The map the handler's loop builds: put each field error in turn, so that a later
      message for the same field replaces an earlier one. */
  function LastMessages(errs: seq<FieldError>): map<string, string>
  {
    if errs == [] then map[]
    else LastMessages(errs[..|errs| - 1])[errs[|errs| - 1].field := errs[|errs| - 1].message]
  }

  /** The keys are exactly the fields that have at least one error. */
  lemma {:induction false} LastMessagesKeys(errs: seq<FieldError>)
    ensures LastMessages(errs).Keys == FieldsOf(errs)
  {
    if errs != [] {
      var init := errs[..|errs| - 1];
      LastMessagesKeys(init);
      assert errs == init + [errs[|errs| - 1]];
      FieldsOfAppend(init, [errs[|errs| - 1]]);
    }
  }

  /** A field's entry is the message of its last error in iteration order. */
  lemma {:induction false} LastMessagesLastWins(errs: seq<FieldError>, i: nat)
    requires i < |errs|
    requires forall j | i < j < |errs| :: errs[j].field != errs[i].field
    ensures errs[i].field in LastMessages(errs)
    ensures LastMessages(errs)[errs[i].field] == errs[i].message
  {
    if i < |errs| - 1 {
      var init := errs[..|errs| - 1];
      LastMessagesLastWins(init, i);
    }
  }

  /** A field whose errors all carry one message is reported with that message, whatever
      the iteration order. */
  lemma {:induction false} LastMessagesSoleMessage(errs: seq<FieldError>, field: string, message: string)
    requires FieldError(field, message) in errs
    requires forall e | e in errs && e.field == field :: e.message == message
    ensures field in LastMessages(errs) && LastMessages(errs)[field] == message
  {
    var init := errs[..|errs| - 1];
    assert errs == init + [errs[|errs| - 1]];
    if errs[|errs| - 1].field != field {
      LastMessagesSoleMessage(init, field, message);
    }
  }

  /** handleValidationExceptions: fold the field errors into a map, then 400. */
  method HandleValidationExceptions(fieldErrors: seq<FieldError>) returns (r: ResponseEntity<ValidationErrorDetails>)
    ensures r.status == BAD_REQUEST && r.body.Some?
    ensures r.body.value.message == ValidationFailedMessage
    ensures r.body.value.errors == LastMessages(fieldErrors)
    ensures r.body.value.errors.Keys == FieldsOf(fieldErrors)
  {
    var errors: map<string, string> := map[];
    for i := 0 to |fieldErrors|
      invariant errors == LastMessages(fieldErrors[..i])
    {
      assert fieldErrors[..i + 1][..i] == fieldErrors[..i];
      errors := errors[fieldErrors[i].field := fieldErrors[i].message];
    }
    assert fieldErrors[..|fieldErrors|] == fieldErrors;
    LastMessagesKeys(fieldErrors);
    r := ResponseEntity(BAD_REQUEST, Some(ValidationErrorDetails(ValidationFailedMessage, errors)));
  }

  /** The advice picks the most specific handler for the exception that reached it. */
  method Handle(f: Failure, request: string) returns (status: int, body: ErrorBody)
    ensures f.ResourceNotFound? ==> status == NOT_FOUND && body == Plain(ErrorDetails(f.message, request))
    ensures f.MethodArgumentNotValid? ==>
      && status == BAD_REQUEST
      && body == Fields(ValidationErrorDetails(ValidationFailedMessage, LastMessages(f.fieldErrors)))
    ensures f.Other? ==>
      status == INTERNAL_SERVER_ERROR && body == Plain(ErrorDetails(f.message, request))
  {
    match f
    case ResourceNotFound(message) =>
      // handleResourceNotFoundException
      status, body := NOT_FOUND, Plain(ErrorDetails(message, request));
    case MethodArgumentNotValid(fieldErrors) =>
      var r := HandleValidationExceptions(fieldErrors);
      status, body := r.status, Fields(r.body.value);
    case Other(message) =>
      // handleException, the catch-all
      status, body := INTERNAL_SERVER_ERROR, Plain(ErrorDetails(message, request));
  }
}
